=== FILE: README.md ===
# ML-Chatbot chat client: text helpers and the request lifecycle

This project models the logic of `script.js`, the browser client of a question-answering
chatbot over indexed PDFs. It covers two parts of that file.

- **The text helpers.** `truncateText` shortens source snippets. `escapeHtml` makes a
  message safe to put in an attribute. `formatMessage` turns newlines into `<br>` tags.
  All three work on `seq<char>`. The JavaScript built-ins they use are modelled in the
  module `JsString`: `trim`, `replace` with a global one-character pattern, `substring`,
  and the decimal rendering of a status code.
- **The chat-history lifecycle.** This is `sendMessage`, the message-box `input` handler
  and the clear handler, without the DOM.
  - The client state is `Chat.Chat`. It holds the `chatHistory` array, the identity of
    that array object, the text in the message box and the send button's `disabled` flag.
  - `Submit` is the part of `sendMessage` before its `await`. It appends the user entry
    and the "Thinking..." placeholder.
  - `Resolve` is the part after the `await`. It replaces the placeholder with the answer
    or with an error record.
  - The network call is an input, `Chat.Outcome`. It is either an HTTP response (status
    plus a parsed or unreadable body), a network error, or the abort fired by the
    30-second timer.
  - The module `Session` strings these steps into event traces: typing, Enter, a reply
    arriving, and clicking clear. In a trace several requests can be in flight at once,
    and replies can arrive in any order.

Modules: `Wrappers` (Option), `JsString`, `TextHelpers`, `Chat`, `Session`.

Three behaviours of the code are easy to overlook, and the model follows the code in each:

- A response body that cannot be parsed does not fall back to the default answer.
  `response.json()` throws inside the `try` block (script.js:278). The placeholder
  therefore becomes an error record (`Chat.ThrownMessage`).
- Replies are not strictly one at a time. In script.js the only caller of `sendMessage`
  is the Enter-key handler (script.js:343-348), and it ignores the button's `disabled`
  flag. Typing re-enables the button while a request is still waiting
  (`Session.TypingEnablesSend`).
- The history length is never odd whenever another handler can run. Both entries of an
  exchange are pushed before the `await`, so the odd length between script.js:232 and
  script.js:242 is never observed (`Session.RunAsWrittenKeepsPaired`).

## Model

| member | source | states |
|---|---|---|
| JsString.Trim | script.js:226 | `trim()` returns the slice of the input between its leading and trailing white space, with white space defined as ECMA-262 WhiteSpace and LineTerminator. The result is empty exactly when the input is all white space. |
| JsString.TrimIdempotent | script.js:226 | Trimming an already trimmed question changes nothing. |
| JsString.ReplaceAll | script.js:199 | A global one-character `replace` leaves a string without the target unchanged. When the replacement does not contain the target, the target no longer occurs in the result. |
| JsString.ReplaceAllConcat | script.js:211-216 | A global one-character replacement distributes over concatenation. |
| JsString.ReplaceAllLength | script.js:199 | Each occurrence of the target changes the length by the replacement's length minus one. No other character changes the length. |
| JsString.Prefix | script.js:206 | `substring(0, n)` is a prefix of the text. Its length is `n` clamped to the range 0 to the text length. |
| JsString.NatToDecimal | script.js:275 | A status code renders as a non-empty string of decimal digits with no leading zero. |
| JsString.NatToDecimalRoundTrip | script.js:275 | Reading the rendered status back as a decimal gives the status code. |
| TextHelpers.TruncateText | script.js:203-207 | Empty text gives `""`. Text no longer than `maxLength` comes back unchanged. Longer text gives its first `maxLength` characters (none if `maxLength` is negative) followed by `"..."`, so the result length is `max(maxLength, 0) + 3`. |
| TextHelpers.TruncateTextIdempotent | script.js:203-207 | Truncating a truncated text again changes nothing. |
| TextHelpers.EscapeHtml | script.js:210-217 | The five chained replacements. Text without any special character comes back unchanged, and no `'` survives. |
| TextHelpers.EscapeHtmlIsPerCharacter | script.js:210-217 | The chain of five global replacements, with `&` first, equals the per-character map `&`→`&amp;`, `<`→`&lt;`, `>`→`&gt;`, `"`→`&quot;`, `'`→`&#039;`. Every other character is copied in order. |
| TextHelpers.EscapeHtmlNoMarkup | script.js:210-217 | The escaped text contains no `<`, `>`, `"` or `'`. |
| TextHelpers.EscapeHtmlPlainText | script.js:210-217 | Text with none of the five special characters comes back unchanged. |
| TextHelpers.EscapeHtmlLength | script.js:210-217 | Escaping never shortens the text. The length stays the same exactly when the input has no special character. |
| TextHelpers.EscapeHtmlLossless | script.js:210-217 | Escaping loses no information: decoding the five entities gives back the original text. |
| TextHelpers.FormatMessage | script.js:197-200 | Empty text gives `<em>No answer provided</em>`. The result is never empty and never contains a newline. Non-empty text without newlines comes back unchanged. |
| TextHelpers.FormatMessageLines | script.js:197-200 | Two non-empty lines joined by a newline render as the two rendered lines joined by `<br>`. |
| TextHelpers.FormatMessageLength | script.js:197-200 | Each newline grows the rendered text by three characters. Nothing else changes the length. |
| Chat.IsOkStatus | script.js:274 | `response.ok`: the status lies in the range 200-299. |
| Chat.ThrownMessage | script.js:258-319 | An error reaches the `catch` exactly when the outcome is not an ok response with a readable body. A status outside 200-299 gives `HTTP error! status: <status>`. A rejected fetch, the abort and an unreadable body give the runtime's own message, which becomes `error.message`. |
| Chat.Settled | script.js:283-321 | The settled entry is always an assistant entry with model `gpt-4.1-nano` and no `thinking` flag. On failure it is `{content: "error", sources: [], error: message, question}`. On success its content is the answer, or the fallback when the answer is missing or empty, and its sources are the returned list or `[]`. |
| Chat.SettledErrorIffFailure | script.js:283-321 | A settled entry carries `error` exactly when the request failed, and carries `question` exactly when it carries `error`. |
| Chat.ErrorMarkerAmbiguous | script.js:283-321 | For every pair of questions, every ok response whose answer is `"error"` and every failure: the two settled entries have the same content but differ. Only the `error` property tells them apart. |
| Chat.Submit | script.js:225-248 | A question that is blank after trimming changes nothing. Otherwise, at history length `n`: exactly two entries are appended (index `n` is the user entry with the trimmed question, index `n+1` is the "Thinking..." placeholder), entries `0..n-1` are kept, the input is emptied, the send button is disabled, and the request remembers index `n+1`. |
| Chat.Store | script.js:283-288 | Assigning past the end of an array pads it with holes. Assigning in range changes only that index. |
| Chat.ResolveAsWritten | script.js:258-329 | The settled entry is written at the remembered index of whatever array the history holds now. Every other existing entry is kept, any gap is filled with holes, and the send button is re-enabled. |
| Chat.Resolve | script.js:258-329 | Corrected reply: when the request's history is still current and its slot is in range, only that slot changes, it becomes the settled entry, and the length is unchanged. A reply for a cleared history leaves the history alone. The send button is re-enabled in both cases. |
| Chat.ResolveAgreesWhileNotCleared | script.js:258-329 | As long as the history has not been cleared, the corrected reply is the reply as written. |
| Chat.Clear | script.js:357-363 | After confirmation the history is empty and is a new array. Without confirmation nothing changes. |
| Chat.EditInput | script.js:334-335 | Typing sets the input. The button is disabled exactly when the typed text is all white space. |
| Chat.CompletedExchange | script.js:225-331 | An uninterrupted exchange at history length `n` ends with the old entries, then the user entry, then the settled entry (length `n+2`). The input is empty and the send button is enabled. |
| Session.Step | script.js:225-363 | One event with the corrected reply. Typing changes only the input and sets the button to disabled exactly when the text is blank; the history, its identity and the waiting requests stay as they were. Enter on a blank question changes nothing; on a non-blank one it registers a request for index `n+1`, grows the history by two and disables the button. A reply retires its request and re-enables the button; a reply for no waiting request changes nothing. A confirmed clear empties the history and keeps the waiting requests. |
| Session.StepAsWritten | script.js:258-329 | One event with the reply as written: a reply retires its request, re-enables the button and puts the settled entry at the remembered index, which always lies inside the resulting history. Every other event, including a reply for no waiting request, gives exactly the world `Session.Step` gives. |
| Session.RunAsWrittenKeepsPaired | script.js:230-248 | Under the code as written, every trace keeps the history length even. User entries or holes sit at even indices, assistant entries or holes at odd ones. |
| Session.ClearDuringRequestLeavesHole | script.js:283-288 | As written: ask "a", clear, then an ok reply arrives. The history becomes `[hole, answer]`. |
| Session.ClearDuringRequestMisattributesReply | script.js:283-288 | As written: ask "a", clear, ask "b", then the reply to "a" arrives. It overwrites the placeholder of "b". |
| Session.TypingEnablesSend | script.js:334-335 | In every session state, typing a non-blank text enables the send button and leaves the waiting requests in place. |
| Session.TypingEnablesSendDuringRequest | script.js:334-348 | For example: after typing "a", pressing Enter and typing "b", a request is waiting and the send button is enabled. |
| Session.StepKeepsConsistent | script.js:225-363 | With the corrected reply, every event keeps the session consistent. The history is well formed. Each current request's placeholder waits right after its question. Current requests own distinct slots. Every "Thinking..." entry belongs to a current request. |
| Session.RunKeepsConsistent | script.js:225-363 | A consistent session stays consistent over any sequence of events. |
| Session.FreshSessionWellFormed | script.js:225-363 | From a fresh page and with the corrected reply, the history never has a hole, user and assistant entries alternate, and no "Thinking..." entry remains once no current request is waiting. |
| Session.ClearDuringRequestDropsReply | script.js:357-363 | With the corrected reply, a late reply to a cleared question is dropped and the new question keeps its placeholder. |

## Left out

- DOM construction and `innerHTML` templating are not modelled: `renderChatHistory`, `addMessageToChat`, the sources toggle, scrolling and focus (script.js:61-194, 220-222). They are presentation over browser APIs.
- `fetch`, `AbortController` and the `setTimeout`/`clearTimeout` timing are not modelled (script.js:259-272). Only the abstract outcome is an input. Error messages the runtime supplies (network failure, abort, JSON parse) are parameters of that outcome.
- The health check is not modelled (script.js:39-58). It is network I/O that only changes a status indicator.
- `localStorage` persistence and `JSON.parse`/`JSON.stringify` are not modelled (script.js:17-36). These are foreign library calls, so reloading a stored history is outside the model.
- The `topK` preference is not modelled: its `parseInt` and the change handler (script.js:20, 351-354). It is only sent to the backend.
- The clipboard copy and the analytics `console.log` records with `Date` timestamps are not modelled (script.js:184-192, 291-311). They are side effects only.
- `source.score.toFixed(3)` is not modelled (script.js:114). It is floating-point formatting. A source's score is kept as an opaque `real` that the flow only copies.
- TextHelpers.TruncateText: lengths and `substring` count Unicode scalar values, not the UTF-16 code units JavaScript counts. Text outside the Basic Multilingual Plane is therefore cut at a different place, and the model never splits a surrogate pair.
- TextHelpers.FormatMessage: only string arguments are modelled. The `!text` test also maps `null` and `undefined` to the placeholder, which a string model cannot express.
- Chat.Settled: a JSON `answer` or `sources` of another type than a string or a list is not modelled; the model only has present strings and lists, or absent ones. None of these fails inside the `try`. Some are harmless. A falsy `answer` (`0`, `false`, `""`) falls back to the default text at script.js:285, as the model's absent answer does. A falsy `sources` becomes `[]`. A number, or an object without a positive `length`, as `sources` renders no sources, because `sources.length > 0` is false for it (script.js:107, 160). Others make the later rendering throw (see the next line).
- Chat.ResolveAsWritten: the re-enable at script.js:329 assumes that `renderChatHistory()` (script.js:325) does not throw. That call sits outside the `try`/`catch`. It throws, among others, for these shapes of reply: a truthy `answer` that is not a string reaches `escapeHtml` (script.js:141, 211); a `sources` that is not an array but has a positive `length`, such as a string or `{"length": 1}`, has no `map` (script.js:107-108); a `null` entry in `sources` has no `source_pdf` (script.js:111); a truthy `score` that is not a number has no `toFixed` (script.js:114); and a truthy `snippet` that is not a string, other than a value whose `length` is at most 220 (an array of at most 220 elements, say), has no `substring` (script.js:117, 204-206). When it throws, the button stays disabled, the history is not saved (script.js:326), and every later render throws again until the chat is cleared. The model has no rendering, so it does not model this path. The model also assumes that `saveToStorage()` returns at script.js:326. `localStorage.setItem` can throw there, for a `QuotaExceededError` or in a browser mode that refuses storage on every call. Then the re-enable at script.js:329 is skipped and the button stays disabled.
- Chat.Submit: the model assumes that `saveToStorage()` returns at script.js:250. If `localStorage.setItem` throws there (a `QuotaExceededError`, or a browser mode that refuses storage on every call), the exception escapes `sendMessage` after both entries were pushed. No request is sent, the "Thinking..." placeholder stays forever, and the button stays disabled. The model's `Chat.Submit` always returns the request.
- The initial `disabled` state of the send button comes from the page markup, which is not part of this model. The fresh session starts with it enabled, and no property depends on it.

## Findings

| source | as written | input that shows it | evidently intended | confidence | as-written member | corrected member |
|---|---|---|---|---|---|---|
| script.js:283-288 | A reply is written to `chatHistory[assistantMessageId]`. That is the index remembered at submission, applied to whatever array `chatHistory` holds when the reply arrives. A clear in between (script.js:359) has replaced the array. | Type "a", press Enter, clear and confirm, then an ok reply arrives. The history becomes `[hole, answer]`, which is stored as `[null, …]`. Alternatively, type "b" and press Enter before the reply to "a" arrives: the answer to "a" replaces the placeholder of "b". | A reply belongs to the exchange it was asked in. Once that history is cleared, the reply has nowhere to go and is dropped. | medium; not executed | Session.ClearDuringRequestLeavesHole | Session.FreshSessionWellFormed |

=== FILE: chat.dfy ===
/**
 * The chat history and its transitions in `sendMessage`, the input handler and
 * the clear handler of script.js, with the DOM, storage and network removed.
 * The network call becomes an `Outcome` argument; the two halves of
 * `sendMessage` (before and after its `await`) become `Submit` and `Resolve`.
 */
module Chat {
  import opened Wrappers
  import opened JsString

  const ModelName := "gpt-4.1-nano"
  const ThinkingText := "Thinking..."
  const FallbackAnswer := "I don't know based on the indexed PDFs."
  const ErrorMarker := "error"
  const HttpErrorPrefix := "HTTP error! status: "

  /** One retrieved passage as the backend returns it; the chat flow copies it verbatim. */
  datatype Source = Source(sourcePdf: Option<string>, page: Option<int>, score: Option<real>, snippet: Option<string>)

  /**
   * An element of the `chatHistory` array. A user entry has only its content;
   * an assistant entry carries the optional `thinking`, `error` and `question`
   * properties as flags and options. `Hole` is an array index that was never
   * assigned, which JavaScript creates when writing past the end of an array.
   */
  datatype Message =
    | UserEntry(content: string)
    | AssistantEntry(content: string, sources: seq<Source>, model: string,
                     thinking: bool, error: Option<string>, question: Option<string>)
    | Hole

  /**
   * The parsed response body, or the message of the error thrown while reading
   * or using it (invalid JSON at script.js:278, a `null` body at script.js:285).
   */
  datatype Body = Json(answer: Option<string>, sources: Option<seq<Source>>) | Unreadable(reason: string)

  /** How the `fetch` of `/ask` settled. The reasons are the messages the runtime puts in its errors. */
  datatype Outcome =
    | Response(status: nat, body: Body)
    | NetworkError(reason: string)
    | Timeout(reason: string)

  /**
   * The client state: the history, the identity of the array object that
   * `chatHistory` currently denotes (clearing assigns a fresh array), the text
   * in the message input and the send button's `disabled` flag.
   */
  datatype Chat = Chat(history: seq<Message>, historyId: nat, input: string, sendDisabled: bool)

  /** What a suspended `sendMessage` call remembers: its placeholder index, question and array. */
  datatype Request = Request(slot: nat, question: string, historyId: nat)

  const Placeholder := AssistantEntry(ThinkingText, [], ModelName, true, None, None)

  function FailedEntry(question: string, reason: string): Message {
    AssistantEntry(ErrorMarker, [], ModelName, false, Some(reason), Some(question))
  }

  /** `response.ok`: a status in the range 200-299. */
  predicate IsOkStatus(status: nat) {
    200 <= status <= 299
  }

  /** The message of the error thrown inside the `try` block, if one was thrown. */
  function ThrownMessage(o: Outcome): (m: Option<string>)
    ensures m.None? <==> o.Response? && IsOkStatus(o.status) && o.body.Json?
    ensures o.Response? && !IsOkStatus(o.status) ==>
              m == Some(HttpErrorPrefix + NatToDecimal(o.status))
    ensures o.Response? && IsOkStatus(o.status) && o.body.Unreadable? ==> m == Some(o.body.reason)
    ensures o.NetworkError? || o.Timeout? ==> m == Some(o.reason)
  {
    match o
    case Response(status, body) =>
      if !IsOkStatus(status) then Some(HttpErrorPrefix + NatToDecimal(status))
      else if body.Unreadable? then Some(body.reason)
      else None
    case NetworkError(reason) => Some(reason)
    case Timeout(reason) => Some(reason)
  }

  /** The entry that replaces the placeholder once the request has settled. */
  function Settled(question: string, o: Outcome): (m: Message)
    ensures m.AssistantEntry? && m.model == ModelName && !m.thinking
    ensures m.error == ThrownMessage(o)
    ensures m.error.Some? ==>
              m.content == ErrorMarker && m.sources == [] && m.question == Some(question)
    ensures m.error.None? ==>
              && m.question.None?
              && m.content != []
              && (o.body.answer.Some? && o.body.answer.value != [] ==> m.content == o.body.answer.value)
              && (o.body.answer.None? || o.body.answer.value == [] ==> m.content == FallbackAnswer)
              && m.sources == o.body.sources.GetOr([])
  {
    match ThrownMessage(o)
    case Some(reason) => FailedEntry(question, reason)
    case None =>
      var answer := o.body.answer;
      AssistantEntry(if answer.Some? && answer.value != [] then answer.value else FallbackAnswer,
                     o.body.sources.GetOr([]), ModelName, false, None, None)
  }

  /** A failed exchange and an answered one are told apart by the `error` property, not the content. */
  lemma SettledErrorIffFailure(question: string, o: Outcome)
    ensures Settled(question, o).error.Some? <==>
              !(o.Response? && IsOkStatus(o.status) && o.body.Json?)
    ensures Settled(question, o).question.Some? <==> Settled(question, o).error.Some?
  {
  }

  /**
   * An answer whose text is "error" looks like a failure by content alone:
   * whatever the questions and the failure, only the `error` property differs.
   */
  lemma ErrorMarkerAmbiguous(q: string, q': string, answered: Outcome, failed: Outcome)
    requires answered.Response? && IsOkStatus(answered.status) && answered.body.Json?
    requires answered.body.answer == Some(ErrorMarker)
    requires ThrownMessage(failed).Some?
    ensures Settled(q, answered).content == Settled(q', failed).content
    ensures Settled(q, answered) != Settled(q', failed)
  {
  }

  /** The first half of `sendMessage`, up to the `await`. */
  function Submit(c: Chat): (r: (Chat, Option<Request>))
    ensures Trim(c.input) == [] ==> r.0 == c && r.1.None?
    ensures Trim(c.input) != [] ==>
              var n := |c.history|;
              var q := Trim(c.input);
              && |r.0.history| == n + 2
              && (forall j :: 0 <= j < n ==> r.0.history[j] == c.history[j])
              && r.0.history[n] == UserEntry(q)
              && r.0.history[n + 1] == Placeholder
              && r.0.historyId == c.historyId
              && r.0.input == []
              && r.0.sendDisabled
              && r.1 == Some(Request(n + 1, q, c.historyId))
  {
    var question := Trim(c.input);
    if question == [] then (c, None)
    else
      var userSlot := |c.history|;
      var history := c.history + [UserEntry(question), Placeholder];
      (Chat(history, c.historyId, [], true), Some(Request(userSlot + 1, question, c.historyId)))
  }

  /** `array[i] = m`: overwrite in range, otherwise extend the array with holes up to `i`. */
  function Store(h: seq<Message>, i: nat, m: Message): (r: seq<Message>)
    ensures |r| == if i < |h| then |h| else i + 1
    ensures r[i] == m
    ensures forall j :: 0 <= j < |h| && j != i ==> r[j] == h[j]
    ensures forall j :: |h| <= j < i ==> r[j] == Hole
  {
    if i < |h| then h[i := m] else h + seq(i - |h|, _ => Hole) + [m]
  }

  /**
   * The second half of `sendMessage` exactly as written: the settled entry is
   * written at the remembered index of whatever array `chatHistory` now holds.
   */
  function ResolveAsWritten(c: Chat, req: Request, o: Outcome): (r: Chat)
    ensures !r.sendDisabled && r.input == c.input && r.historyId == c.historyId
    ensures |r.history| == if req.slot < |c.history| then |c.history| else req.slot + 1
    ensures r.history[req.slot] == Settled(req.question, o)
    ensures forall j :: 0 <= j < |c.history| && j != req.slot ==> r.history[j] == c.history[j]
    ensures forall j :: |c.history| <= j < req.slot ==> r.history[j] == Hole
  {
    Chat(Store(c.history, req.slot, Settled(req.question, o)), c.historyId, c.input, false)
  }

  /**
   * The second half of `sendMessage` with the write confined to the array the
   * request was issued against: a reply for a cleared history is dropped.
   * The send button is re-enabled either way.
   */
  function Resolve(c: Chat, req: Request, o: Outcome): (r: Chat)
    ensures !r.sendDisabled && r.input == c.input && r.historyId == c.historyId
    ensures req.historyId != c.historyId ==> r.history == c.history
    ensures req.historyId == c.historyId && req.slot < |c.history| ==>
              && |r.history| == |c.history|
              && r.history[req.slot] == Settled(req.question, o)
              && forall j :: 0 <= j < |c.history| && j != req.slot ==> r.history[j] == c.history[j]
  {
    if req.historyId == c.historyId then ResolveAsWritten(c, req, o)
    else c.(sendDisabled := false)
  }

  /** While the history has not been replaced the correction changes nothing. */
  lemma ResolveAgreesWhileNotCleared(c: Chat, req: Request, o: Outcome)
    requires req.historyId == c.historyId
    ensures Resolve(c, req, o) == ResolveAsWritten(c, req, o)
  {
  }

  /** The clear handler: after confirmation the history is a fresh empty array. */
  function Clear(c: Chat, confirmed: bool): (r: Chat)
    ensures confirmed ==> r.history == [] && r.historyId > c.historyId
    ensures !confirmed ==> r == c
    ensures r.input == c.input && r.sendDisabled == c.sendDisabled
  {
    if confirmed then c.(history := [], historyId := c.historyId + 1) else c
  }

  /** The `input` handler: the button is disabled exactly when the typed text is blank. */
  function EditInput(c: Chat, value: string): (r: Chat)
    ensures r.input == value && r.history == c.history && r.historyId == c.historyId
    ensures r.sendDisabled <==> forall k :: 0 <= k < |value| ==> IsTrimmable(value[k])
  {
    c.(input := value, sendDisabled := Trim(value) == [])
  }

  /**
   * One uninterrupted exchange: submitting a non-blank question and settling
   * its request appends exactly the user entry and the settled entry, leaves
   * the input empty and the send button enabled.
   */
  lemma CompletedExchange(c: Chat, o: Outcome)
    requires Trim(c.input) != []
    ensures var (c1, req) := Submit(c);
            && req.Some?
            && var c2 := Resolve(c1, req.value, o);
            && c2.history == c.history + [UserEntry(Trim(c.input)), Settled(Trim(c.input), o)]
            && !c2.sendDisabled
            && c2.input == []
            && c2.historyId == c.historyId
  {
    var (c1, req) := Submit(c);
    var c2 := Resolve(c1, req.value, o);
    var expected := c.history + [UserEntry(Trim(c.input)), Settled(Trim(c.input), o)];
    assert |c2.history| == |expected|;
    forall j | 0 <= j < |expected| ensures c2.history[j] == expected[j] {
      if j < |c.history| {
        assert c2.history[j] == c1.history[j];
      }
    }
  }
}

=== FILE: js_string.dfy ===
/**
 * The few JavaScript string built-ins the chat client relies on, stated over
 * `seq<char>`: `String.prototype.trim`, `replace` with a global one-character
 * pattern, `substring`, and the decimal rendering of a non-negative integer.
 */
module JsString {

  /** WhiteSpace or LineTerminator in the sense of ECMA-262: what `trim` strips. */
  predicate IsTrimmable(c: char) {
    c as int in TrimmableCodes
  }

  const TrimmableCodes: set<int> :=
    {0x09, 0x0A, 0x0B, 0x0C, 0x0D, 0x20, 0xA0, 0x1680, 0x2000, 0x2001, 0x2002, 0x2003,
     0x2004, 0x2005, 0x2006, 0x2007, 0x2008, 0x2009, 0x200A, 0x2028, 0x2029, 0x202F,
     0x205F, 0x3000, 0xFEFF}

  predicate AllTrimmable(s: string) {
    forall k :: 0 <= k < |s| ==> IsTrimmable(s[k])
  }

  /** The first position at or after `i` that is not white space (or the end). */
  function SkipForward(s: string, i: nat): (k: nat)
    requires i <= |s|
    ensures i <= k <= |s|
    ensures forall m :: i <= m < k ==> IsTrimmable(s[m])
    ensures k == |s| || !IsTrimmable(s[k])
    decreases |s| - i
  {
    if i < |s| && IsTrimmable(s[i]) then SkipForward(s, i + 1) else i
  }

  /** The position just after the last non-white-space character before `j` (or zero). */
  function SkipBackward(s: string, j: nat): (k: nat)
    requires j <= |s|
    ensures k <= j
    ensures forall m :: k <= m < j ==> IsTrimmable(s[m])
    ensures k == 0 || !IsTrimmable(s[k - 1])
  {
    if j > 0 && IsTrimmable(s[j - 1]) then SkipBackward(s, j - 1) else j
  }

  /** `s.trim()`: the slice of `s` left between its leading and its trailing white space. */
  function Trim(s: string): (r: string)
    ensures var i := SkipForward(s, 0);
            && i + |r| <= |s| && r == s[i..i + |r|]
            && (forall m :: 0 <= m < i ==> IsTrimmable(s[m]))
            && (forall m :: i + |r| <= m < |s| ==> IsTrimmable(s[m]))
    ensures r == [] || (!IsTrimmable(r[0]) && !IsTrimmable(r[|r| - 1]))
    ensures r == [] <==> AllTrimmable(s)
  {
    var i := SkipForward(s, 0);
    if i == |s| then [] else s[i..SkipBackward(s, |s|)]
  }

  /** Trimming a trimmed string changes nothing. */
  lemma TrimIdempotent(s: string)
    ensures Trim(Trim(s)) == Trim(s)
  {
    var r := Trim(s);
    if r != [] {
      assert SkipForward(r, 0) == 0;
      assert SkipBackward(r, |r|) == |r|;
    }
  }

  /** `s.replace(/target/g, rep)` for a one-character pattern and a replacement without `$`. */
  function ReplaceAll(s: string, target: char, rep: string): (r: string)
    ensures target !in s ==> r == s
    ensures target !in rep ==> target !in r
  {
    if s == [] then [] else Replacement(s[0], target, rep) + ReplaceAll(s[1..], target, rep)
  }

  /** What one character of the subject turns into. */
  function Replacement(c: char, target: char, rep: string): string {
    if c == target then rep else [c]
  }

  /** How many times `c` occurs in `s`. */
  function Count(s: string, c: char): nat {
    if s == [] then 0 else (if s[0] == c then 1 else 0) + Count(s[1..], c)
  }

  /** Each occurrence of the target grows the string by the replacement's length less one. */
  lemma {:induction false} ReplaceAllLength(s: string, target: char, rep: string)
    ensures |ReplaceAll(s, target, rep)| == |s| - Count(s, target) + Count(s, target) * |rep|
  {
    if s != [] {
      ReplaceAllLength(s[1..], target, rep);
      var k := Count(s[1..], target);
      if s[0] == target {
        MulSucc(k, |rep|);
      }
    }
  }

  lemma MulSucc(k: nat, m: nat)
    ensures (k + 1) * m == k * m + m
  {
  }

  /** Replacing in a concatenation replaces in each part. */
  lemma {:induction false} ReplaceAllConcat(a: string, b: string, target: char, rep: string)
    ensures ReplaceAll(a + b, target, rep) == ReplaceAll(a, target, rep) + ReplaceAll(b, target, rep)
  {
    if a == [] {
      assert a + b == b;
    } else {
      var ab := a + b;
      assert ab[0] == a[0] && ab[1..] == a[1..] + b;
      ReplaceAllConcat(a[1..], b, target, rep);
      var x := Replacement(a[0], target, rep);
      var ra, rb := ReplaceAll(a[1..], target, rep), ReplaceAll(b, target, rep);
      assert ReplaceAll(ab, target, rep) == x + (ra + rb);
      assert x + (ra + rb) == (x + ra) + rb;
    }
  }

  /** `text.substring(0, n)`: JavaScript clamps a negative end to zero and a long one to the length. */
  function Prefix(text: string, n: int): (r: string)
    ensures |r| == if n < 0 then 0 else if n > |text| then |text| else n
    ensures r == text[..|r|]
  {
    if n < 0 then [] else if n > |text| then text else text[..n]
  }

  function Digit(d: nat): (c: char)
    requires d < 10
    ensures '0' <= c <= '9' && c as int - '0' as int == d
  {
    ('0' as int + d) as char
  }

  /** The decimal rendering JavaScript gives a non-negative integer (`${n}`). */
  function NatToDecimal(n: nat): (r: string)
    ensures |r| >= 1
    ensures forall k :: 0 <= k < |r| ==> '0' <= r[k] <= '9'
    ensures r[0] == '0' ==> n == 0
  {
    if n < 10 then [Digit(n)] else NatToDecimal(n / 10) + [Digit(n % 10)]
  }

  /** The number a string of decimal digits denotes. */
  function DecimalValue(s: string): nat
    requires forall k :: 0 <= k < |s| ==> '0' <= s[k] <= '9'
  {
    if s == [] then 0 else DecimalValue(s[..|s| - 1]) * 10 + (s[|s| - 1] as int - '0' as int)
  }

  /** The decimal rendering loses nothing: reading it back gives the number. */
  lemma {:induction false} NatToDecimalRoundTrip(n: nat)
    ensures DecimalValue(NatToDecimal(n)) == n
  {
    if n >= 10 {
      var r := NatToDecimal(n);
      assert r[..|r| - 1] == NatToDecimal(n / 10);
      NatToDecimalRoundTrip(n / 10);
    }
  }
}

=== FILE: session.dfy ===
/**
 * A browser session as a sequence of user and network events. Several
 * requests can be in flight: the Enter key starts `sendMessage` whatever the
 * send button's state, and replies arrive in any order.
 */
module Session {
  import opened Wrappers
  import opened JsString
  import opened Chat

  datatype Event =
    | Type(value: string)                         // an `input` event on the message box
    | PressEnter                                  // Enter without Shift: `sendMessage()`
    | Reply(request: Request, outcome: Outcome)   // the `await fetch` of that request settles
    | ClickClear(confirmed: bool)                 // the clear button and the answer to `confirm`

  /** The client state together with the `sendMessage` calls still suspended at their `await`. */
  datatype World = World(chat: Chat, inFlight: set<Request>)

  /**
   * One event under the corrected reply. Typing only edits the input; Enter
   * on a non-blank question registers its request; a reply retires its
   * request; a confirmed clear empties the history and keeps waiting requests.
   */
  function Step(w: World, e: Event): (r: World)
    ensures e.Type? ==>
              && r.chat.history == w.chat.history && r.inFlight == w.inFlight
              && r.chat.historyId == w.chat.historyId
              && r.chat.input == e.value && (r.chat.sendDisabled <==> AllTrimmable(e.value))
    ensures e.PressEnter? && AllTrimmable(w.chat.input) ==> r == w
    ensures e.PressEnter? && !AllTrimmable(w.chat.input) ==>
              && r.inFlight == w.inFlight + {Request(|w.chat.history| + 1, Trim(w.chat.input), w.chat.historyId)}
              && |r.chat.history| == |w.chat.history| + 2 && r.chat.sendDisabled
    ensures e.Reply? ==> r.inFlight == w.inFlight - {e.request}
    ensures e.Reply? && e.request !in w.inFlight ==> r == w
    ensures e.Reply? && e.request in w.inFlight ==> !r.chat.sendDisabled
    ensures e.ClickClear? ==> r.inFlight == w.inFlight && (e.confirmed ==> r.chat.history == [])
  {
    match e
    case Type(value) => w.(chat := EditInput(w.chat, value))
    case PressEnter =>
      var (c, req) := Submit(w.chat);
      World(c, if req.Some? then w.inFlight + {req.value} else w.inFlight)
    case Reply(req, o) =>
      if req in w.inFlight then World(Resolve(w.chat, req, o), w.inFlight - {req}) else w
    case ClickClear(confirmed) => w.(chat := Clear(w.chat, confirmed))
  }

  /** The same step with the reply written as script.js writes it. */
  function StepAsWritten(w: World, e: Event): (r: World)
    ensures e.Reply? ==> r.inFlight == w.inFlight - {e.request}
    ensures e.Reply? && e.request in w.inFlight ==>
              && !r.chat.sendDisabled
              && e.request.slot < |r.chat.history|
              && r.chat.history[e.request.slot] == Settled(e.request.question, e.outcome)
    ensures !(e.Reply? && e.request in w.inFlight) ==> r == Step(w, e)
  {
    if e.Reply? && e.request in w.inFlight then
      World(ResolveAsWritten(w.chat, e.request, e.outcome), w.inFlight - {e.request})
    else Step(w, e)
  }

  function Run(w: World, events: seq<Event>): World
    decreases |events|
  {
    if events == [] then w else Run(Step(w, events[0]), events[1..])
  }

  function RunAsWritten(w: World, events: seq<Event>): World
    decreases |events|
  {
    if events == [] then w else RunAsWritten(StepAsWritten(w, events[0]), events[1..])
  }

  /** A page load with nothing stored: empty history, empty input. */
  const Fresh := World(Chat([], 0, [], false), {})

  /* ---------------------------------------------------------------- as written */

  /** User entries at even indices, assistant entries at odd ones, holes anywhere. */
  predicate Paired(h: seq<Message>) {
    && |h| % 2 == 0
    && forall i :: 0 <= i < |h| ==>
         (i % 2 == 0 ==> h[i].UserEntry? || h[i].Hole?) && (i % 2 == 1 ==> h[i].AssistantEntry? || h[i].Hole?)
  }

  /** What script.js keeps as written: the length is even, and every reply targets an odd index. */
  ghost predicate PairedWorld(w: World) {
    && Paired(w.chat.history)
    && forall p :: p in w.inFlight ==> p.slot % 2 == 1
  }

  lemma StepAsWrittenKeepsPaired(w: World, e: Event)
    requires PairedWorld(w)
    ensures PairedWorld(StepAsWritten(w, e))
  {
    match e {
      case PressEnter => SubmitKeepsPaired(w);
      case Reply(req, o) => ReplyAsWrittenKeepsPaired(w, req, o);
      case Type(_) =>
      case ClickClear(_) =>
    }
  }

  lemma SubmitKeepsPaired(w: World)
    requires PairedWorld(w)
    ensures PairedWorld(StepAsWritten(w, PressEnter))
  {
    var (c, req) := Submit(w.chat);
    assert StepAsWritten(w, PressEnter).chat == c;
  }

  lemma ReplyAsWrittenKeepsPaired(w: World, req: Request, o: Outcome)
    requires PairedWorld(w)
    ensures PairedWorld(StepAsWritten(w, Reply(req, o)))
  {
    if req in w.inFlight {
      var h' := ResolveAsWritten(w.chat, req, o).history;
      assert req.slot % 2 == 1;
      assert |h'| % 2 == 0;
    }
  }

  /**
   * Both entries of an exchange are pushed before the `await`, so even with
   * overlapping requests and clears the history length is always even.
   */
  lemma {:induction false} RunAsWrittenKeepsPaired(w: World, events: seq<Event>)
    requires PairedWorld(w)
    ensures PairedWorld(RunAsWritten(w, events))
    ensures |RunAsWritten(w, events).chat.history| % 2 == 0
    decreases |events|
  {
    if events != [] {
      StepAsWrittenKeepsPaired(w, events[0]);
      RunAsWrittenKeepsPaired(StepAsWritten(w, events[0]), events[1..]);
    }
  }

  const Question := "a"
  const AnswerText := "x"
  const FirstRequest := Request(1, Question, 0)
  const OkReply := Response(200, Json(Some(AnswerText), None))
  const Answered := AssistantEntry(AnswerText, [], ModelName, false, None, None)

  lemma TrimSingleLetter(s: string)
    requires |s| == 1 && 'a' <= s[0] <= 'z'
    ensures Trim(s) == s
  {
    assert !IsTrimmable(s[0]);
  }

  /**
   * Clearing while a request is in flight: the late reply is written at its
   * old index of the new, empty array, leaving a hole in front of it.
   */
  lemma ClearDuringRequestLeavesHole()
    ensures var events := [Type(Question), PressEnter, ClickClear(true), Reply(FirstRequest, OkReply)];
            RunAsWritten(Fresh, events).chat.history == [Hole, Answered]
  {
    TrimSingleLetter(Question);
    var w1 := StepAsWritten(Fresh, Type(Question));
    var w2 := StepAsWritten(w1, PressEnter);
    assert w2.inFlight == {FirstRequest};
    var w3 := StepAsWritten(w2, ClickClear(true));
    var w4 := StepAsWritten(w3, Reply(FirstRequest, OkReply));
    assert w4.chat.history == [Hole, Answered];
    var events := [Type(Question), PressEnter, ClickClear(true), Reply(FirstRequest, OkReply)];
    assert RunAsWritten(Fresh, events) == RunAsWritten(w1, events[1..]);
    assert RunAsWritten(w1, events[1..]) == RunAsWritten(w2, events[2..]);
    assert RunAsWritten(w2, events[2..]) == RunAsWritten(w3, events[3..]);
    assert RunAsWritten(w3, events[3..]) == RunAsWritten(w4, []);
  }

  /**
   * Clearing and asking again: the reply to the first question overwrites the
   * placeholder of the second, so it is shown as the answer to "b".
   */
  lemma ClearDuringRequestMisattributesReply()
    ensures var events := [Type(Question), PressEnter, ClickClear(true), Type("b"), PressEnter,
                           Reply(FirstRequest, OkReply)];
            RunAsWritten(Fresh, events).chat.history == [UserEntry("b"), Answered]
  {
    TrimSingleLetter(Question);
    TrimSingleLetter("b");
    var events := [Type(Question), PressEnter, ClickClear(true), Type("b"), PressEnter,
                   Reply(FirstRequest, OkReply)];
    var w1 := StepAsWritten(Fresh, events[0]);
    var w2 := StepAsWritten(w1, events[1]);
    assert w2.inFlight == {FirstRequest};
    var w3 := StepAsWritten(w2, events[2]);
    var w4 := StepAsWritten(w3, events[3]);
    var w5 := StepAsWritten(w4, events[4]);
    assert FirstRequest in w5.inFlight;
    var w6 := StepAsWritten(w5, events[5]);
    assert w6.chat.history == [UserEntry("b"), Answered];
    assert RunAsWritten(Fresh, events) == RunAsWritten(w1, events[1..]);
    assert RunAsWritten(w1, events[1..]) == RunAsWritten(w2, events[2..]);
    assert RunAsWritten(w2, events[2..]) == RunAsWritten(w3, events[3..]);
    assert RunAsWritten(w3, events[3..]) == RunAsWritten(w4, events[4..]);
    assert RunAsWritten(w4, events[4..]) == RunAsWritten(w5, events[5..]);
    assert RunAsWritten(w5, events[5..]) == RunAsWritten(w6, []);
  }

  /** Typing a non-blank text enables the button whatever requests are still waiting. */
  lemma TypingEnablesSend(w: World, value: string)
    requires !AllTrimmable(value)
    ensures !Step(w, Type(value)).chat.sendDisabled
    ensures Step(w, Type(value)).inFlight == w.inFlight
  {
  }

  /** For example: a request typed while another one is waiting enables the button before the first settles. */
  lemma TypingEnablesSendDuringRequest()
    ensures var w := Run(Fresh, [Type(Question), PressEnter, Type("b")]);
            w.inFlight != {} && !w.chat.sendDisabled
  {
    TrimSingleLetter(Question);
    TrimSingleLetter("b");
    var events := [Type(Question), PressEnter, Type("b")];
    var w1 := Step(Fresh, events[0]);
    var w2 := Step(w1, events[1]);
    var w3 := Step(w2, events[2]);
    assert w3.inFlight != {} && !w3.chat.sendDisabled;
    assert Run(Fresh, events) == Run(w1, events[1..]);
    assert Run(w1, events[1..]) == Run(w2, events[2..]);
    assert Run(w2, events[2..]) == Run(w3, []);
  }

  /* ---------------------------------------------------------------- corrected */

  /** User entries exactly at even indices, assistant entries at odd ones, no holes. */
  predicate WellFormed(h: seq<Message>) {
    && |h| % 2 == 0
    && forall i :: 0 <= i < |h| ==> !h[i].Hole? && (h[i].UserEntry? <==> i % 2 == 0)
  }

  /** A request issued against the array the history still denotes. */
  predicate Current(w: World, p: Request) {
    p.historyId == w.chat.historyId
  }

  /** No request refers to an array newer than the current one. */
  predicate NoFutureRequests(w: World) {
    forall p :: p in w.inFlight ==> p.historyId <= w.chat.historyId
  }

  /** Each current request's placeholder is still waiting, right after its question. */
  predicate PlaceholdersWaiting(w: World) {
    var h := w.chat.history;
    forall p :: p in w.inFlight && Current(w, p) ==>
      && p.slot % 2 == 1 && p.slot < |h|
      && h[p.slot] == Placeholder && h[p.slot - 1] == UserEntry(p.question)
  }

  /** Current requests own distinct slots. */
  predicate DistinctSlots(w: World) {
    forall p, q :: (p in w.inFlight && q in w.inFlight && Current(w, p) && Current(w, q)
                    && p.slot == q.slot) ==> p == q
  }

  /** Every "Thinking..." entry belongs to a current request. */
  ghost predicate ThinkingOwned(w: World) {
    var h := w.chat.history;
    forall i :: 0 <= i < |h| && h[i].AssistantEntry? && h[i].thinking ==>
      exists p :: p in w.inFlight && Current(w, p) && p.slot == i
  }

  /** The invariant of a session under the corrected reply. */
  ghost predicate Consistent(w: World) {
    && WellFormed(w.chat.history)
    && NoFutureRequests(w)
    && PlaceholdersWaiting(w)
    && DistinctSlots(w)
    && ThinkingOwned(w)
  }

  lemma SubmitKeepsConsistent(w: World)
    requires Consistent(w)
    ensures Consistent(Step(w, PressEnter))
  {
    var (c, req) := Submit(w.chat);
    if req.Some? {
      var w' := Step(w, PressEnter);
      assert w' == World(c, w.inFlight + {req.value});
      SubmitKeepsWellFormed(w.chat);
      SubmitKeepsWaiting(w);
      SubmitKeepsDistinct(w);
      SubmitKeepsOwned(w);
    }
  }

  lemma SubmitKeepsWellFormed(c: Chat)
    requires WellFormed(c.history)
    ensures WellFormed(Submit(c).0.history)
  {
  }

  lemma SubmitKeepsWaiting(w: World)
    requires WellFormed(w.chat.history) && PlaceholdersWaiting(w)
    ensures PlaceholdersWaiting(Step(w, PressEnter))
  {
    var (c, req) := Submit(w.chat);
    if req.Some? {
      var w' := Step(w, PressEnter);
      forall p | p in w'.inFlight && Current(w', p)
        ensures p.slot % 2 == 1 && p.slot < |c.history|
        ensures c.history[p.slot] == Placeholder && c.history[p.slot - 1] == UserEntry(p.question)
      {
        if p != req.value { assert p in w.inFlight && Current(w, p); }
      }
    }
  }

  lemma SubmitKeepsDistinct(w: World)
    requires PlaceholdersWaiting(w) && DistinctSlots(w)
    ensures DistinctSlots(Step(w, PressEnter))
  {
  }

  lemma SubmitKeepsOwned(w: World)
    requires ThinkingOwned(w)
    ensures ThinkingOwned(Step(w, PressEnter))
  {
    var (c, req) := Submit(w.chat);
    if req.Some? {
      var w' := Step(w, PressEnter);
      var n := |w.chat.history|;
      forall i | 0 <= i < |c.history| && c.history[i].AssistantEntry? && c.history[i].thinking
        ensures exists p :: p in w'.inFlight && Current(w', p) && p.slot == i
      {
        if i < n {
          var p :| p in w.inFlight && Current(w, p) && p.slot == i;
          assert p in w'.inFlight;
        } else {
          assert req.value in w'.inFlight && req.value.slot == i;
        }
      }
    }
  }

  lemma ReplyKeepsConsistent(w: World, req: Request, o: Outcome)
    requires Consistent(w)
    ensures Consistent(Step(w, Reply(req, o)))
  {
    if req in w.inFlight {
      if Current(w, req) {
        CurrentReplyKeepsWaiting(w, req, o);
        CurrentReplyKeepsOwned(w, req, o);
      } else {
        StaleReplyKeepsConsistent(w, req, o);
      }
    }
  }

  lemma CurrentReplyKeepsWaiting(w: World, req: Request, o: Outcome)
    requires PlaceholdersWaiting(w) && DistinctSlots(w) && req in w.inFlight && Current(w, req)
    ensures PlaceholdersWaiting(Step(w, Reply(req, o)))
  {
    var w' := Step(w, Reply(req, o));
    var h' := w'.chat.history;
    assert w'.inFlight == w.inFlight - {req};
    forall p | p in w'.inFlight && Current(w', p)
      ensures p.slot % 2 == 1 && p.slot < |h'|
      ensures h'[p.slot] == Placeholder && h'[p.slot - 1] == UserEntry(p.question)
    {
      assert p in w.inFlight && Current(w, p) && p.slot != req.slot;
    }
  }

  lemma CurrentReplyKeepsOwned(w: World, req: Request, o: Outcome)
    requires PlaceholdersWaiting(w) && ThinkingOwned(w) && req in w.inFlight && Current(w, req)
    ensures ThinkingOwned(Step(w, Reply(req, o)))
  {
    var w' := Step(w, Reply(req, o));
    var h' := w'.chat.history;
    assert w'.inFlight == w.inFlight - {req};
    forall i | 0 <= i < |h'| && h'[i].AssistantEntry? && h'[i].thinking
      ensures exists p :: p in w'.inFlight && Current(w', p) && p.slot == i
    {
      assert i != req.slot;
      var p :| p in w.inFlight && Current(w, p) && p.slot == i;
      assert p in w'.inFlight;
    }
  }

  lemma StaleReplyKeepsConsistent(w: World, req: Request, o: Outcome)
    requires Consistent(w) && req in w.inFlight && !Current(w, req)
    ensures Consistent(Step(w, Reply(req, o)))
  {
    var w' := Step(w, Reply(req, o));
    var h' := w'.chat.history;
    assert h' == w.chat.history;
    assert w'.inFlight == w.inFlight - {req};
    forall i | 0 <= i < |h'| && h'[i].AssistantEntry? && h'[i].thinking
      ensures exists p :: p in w'.inFlight && Current(w', p) && p.slot == i
    {
      var p :| p in w.inFlight && Current(w, p) && p.slot == i;
      assert p in w'.inFlight;
    }
  }

  lemma StepKeepsConsistent(w: World, e: Event)
    requires Consistent(w)
    ensures Consistent(Step(w, e))
  {
    match e {
      case PressEnter => SubmitKeepsConsistent(w);
      case Reply(req, o) => ReplyKeepsConsistent(w, req, o);
      case Type(_) =>
        var w' := Step(w, e);
        forall i | 0 <= i < |w'.chat.history| && w'.chat.history[i].AssistantEntry? && w'.chat.history[i].thinking
          ensures exists p :: p in w'.inFlight && Current(w', p) && p.slot == i
        {
          var p :| p in w.inFlight && Current(w, p) && p.slot == i;
        }
      case ClickClear(confirmed) =>
        var w' := Step(w, e);
        if !confirmed { assert w' == w; }
    }
  }

  /** Every session kept consistent step by step stays consistent over any sequence of events. */
  lemma {:induction false} RunKeepsConsistent(w: World, events: seq<Event>)
    requires Consistent(w)
    ensures Consistent(Run(w, events))
    decreases |events|
  {
    if events != [] {
      StepKeepsConsistent(w, events[0]);
      RunKeepsConsistent(Step(w, events[0]), events[1..]);
    }
  }

  /**
   * From a fresh page, whatever the user and the network do: the history
   * never has a hole, questions and assistant entries alternate, and once no
   * request of the current history is waiting there is no "Thinking..." entry left.
   */
  lemma FreshSessionWellFormed(events: seq<Event>)
    ensures var w := Run(Fresh, events);
            && WellFormed(w.chat.history)
            && ((forall p :: p in w.inFlight ==> !Current(w, p)) ==>
                  forall i :: 0 <= i < |w.chat.history| ==> w.chat.history[i] != Placeholder)
  {
    RunKeepsConsistent(Fresh, events);
  }

  /** Under the corrected reply the late answer of a cleared history is dropped. */
  lemma ClearDuringRequestDropsReply()
    ensures var events := [Type(Question), PressEnter, ClickClear(true), Type("b"), PressEnter,
                           Reply(FirstRequest, OkReply)];
            Run(Fresh, events).chat.history == [UserEntry("b"), Placeholder]
  {
    TrimSingleLetter(Question);
    TrimSingleLetter("b");
    var events := [Type(Question), PressEnter, ClickClear(true), Type("b"), PressEnter,
                   Reply(FirstRequest, OkReply)];
    var w1 := Step(Fresh, events[0]);
    var w2 := Step(w1, events[1]);
    var w3 := Step(w2, events[2]);
    var w4 := Step(w3, events[3]);
    var w5 := Step(w4, events[4]);
    assert FirstRequest in w5.inFlight;
    var w6 := Step(w5, events[5]);
    assert w6.chat.history == [UserEntry("b"), Placeholder];
    assert Run(Fresh, events) == Run(w1, events[1..]);
    assert Run(w1, events[1..]) == Run(w2, events[2..]);
    assert Run(w2, events[2..]) == Run(w3, events[3..]);
    assert Run(w3, events[3..]) == Run(w4, events[4..]);
    assert Run(w4, events[4..]) == Run(w5, events[5..]);
    assert Run(w5, events[5..]) == Run(w6, []);
  }
}

=== FILE: text_helpers.dfy ===
/**
 * The three pure text helpers of the chat client: `truncateText`, `escapeHtml`
 * and `formatMessage` (script.js:196-217).
 */
module TextHelpers {
  import opened JsString

  const Ellipsis := "..."
  const NoAnswer := "<em>No answer provided</em>"

  /** `truncateText(text, maxLength)`: short text is kept, long text is cut and marked. */
  function TruncateText(text: string, maxLength: int): (r: string)
    ensures text == [] ==> r == []
    ensures |text| <= maxLength ==> r == text
    ensures text != [] && |text| > maxLength ==>
              && |r| == (if maxLength < 0 then 0 else maxLength) + |Ellipsis|
              && r[..|r| - |Ellipsis|] == text[..|r| - |Ellipsis|]
              && r[|r| - |Ellipsis|..] == Ellipsis
  {
    if text == [] then []
    else if |text| <= maxLength then text
    else Prefix(text, maxLength) + Ellipsis
  }

  /** Truncating an already truncated text changes nothing: the marked prefix is kept as it is. */
  lemma TruncateTextIdempotent(text: string, maxLength: int)
    ensures TruncateText(TruncateText(text, maxLength), maxLength) == TruncateText(text, maxLength)
  {
    var r := TruncateText(text, maxLength);
    if text != [] && |text| > maxLength {
      var n := if maxLength < 0 then 0 else maxLength;
      assert r[..n] == text[..n];
    }
  }

  /** The entity each of the five characters `escapeHtml` rewrites becomes; other characters stay. */
  function EscapeChar(c: char): string {
    match c
    case '&' => "&amp;"
    case '<' => "&lt;"
    case '>' => "&gt;"
    case '"' => "&quot;"
    case '\'' => "&#039;"
    case _ => [c]
  }

  predicate IsSpecial(c: char) {
    c == '&' || c == '<' || c == '>' || c == '"' || c == '\''
  }

  /** The reference definition: each character escaped on its own, in order. */
  function EscapeEach(s: string): string {
    if s == [] then [] else EscapeChar(s[0]) + EscapeEach(s[1..])
  }

  /** `escapeHtml(unsafe)`: five global replacements, ampersand first. */
  function EscapeHtml(unsafe: string): (r: string)
    ensures (forall k :: 0 <= k < |unsafe| ==> !IsSpecial(unsafe[k])) ==> r == unsafe
    ensures '\'' !in r
  {
    var s1 := ReplaceAll(unsafe, '&', "&amp;");
    var s2 := ReplaceAll(s1, '<', "&lt;");
    var s3 := ReplaceAll(s2, '>', "&gt;");
    var s4 := ReplaceAll(s3, '"', "&quot;");
    ReplaceAll(s4, '\'', "&#039;")
  }

  /** On a single character the chain of replacements is the per-character map. */
  lemma EscapeHtmlChar(c: char)
    ensures EscapeHtml([c]) == EscapeChar(c)
  {
    if IsSpecial(c) {
      EscapeHtmlSpecialChar(c);
    } else {
      ReplaceAllOne(c, '&', "&amp;");
      ReplaceAllOne(c, '<', "&lt;");
      ReplaceAllOne(c, '>', "&gt;");
      ReplaceAllOne(c, '"', "&quot;");
      ReplaceAllOne(c, '\'', "&#039;");
    }
  }

  /** An entity has no target character after its own, so the later replacements leave it alone. */
  lemma EscapeHtmlSpecialChar(c: char)
    requires IsSpecial(c)
    ensures EscapeHtml([c]) == EscapeChar(c)
  {
    var e := EscapeChar(c);
    assert '\'' !in e && (c != '\'' ==> '"' !in e) && (c != '\'' && c != '"' ==> '>' !in e)
      && (c == '&' ==> '<' !in e);
    ReplaceAllOne(c, '&', "&amp;");
    var s1 := ReplaceAll([c], '&', "&amp;");
    if c != '&' { ReplaceAllOne(c, '<', "&lt;"); }
    var s2 := ReplaceAll(s1, '<', "&lt;");
    assert s2 == if c == '&' || c == '<' then e else [c];
    if c != '&' && c != '<' { ReplaceAllOne(c, '>', "&gt;"); }
    var s3 := ReplaceAll(s2, '>', "&gt;");
    assert s3 == if c == '"' || c == '\'' then [c] else e;
    if c == '"' || c == '\'' { ReplaceAllOne(c, '"', "&quot;"); }
    var s4 := ReplaceAll(s3, '"', "&quot;");
    assert s4 == if c == '\'' then [c] else e;
    if c == '\'' { ReplaceAllOne(c, '\'', "&#039;"); }
  }

  lemma ReplaceAllOne(c: char, target: char, rep: string)
    ensures ReplaceAll([c], target, rep) == if c == target then rep else [c]
  {
    assert [c][1..] == [];
  }

  lemma EscapeHtmlConcat(a: string, b: string)
    ensures EscapeHtml(a + b) == EscapeHtml(a) + EscapeHtml(b)
  {
    var t1, t2, t3, t4 := "&amp;", "&lt;", "&gt;", "&quot;";
    ReplaceAllConcat(a, b, '&', t1);
    var a1, b1 := ReplaceAll(a, '&', t1), ReplaceAll(b, '&', t1);
    ReplaceAllConcat(a1, b1, '<', t2);
    var a2, b2 := ReplaceAll(a1, '<', t2), ReplaceAll(b1, '<', t2);
    ReplaceAllConcat(a2, b2, '>', t3);
    var a3, b3 := ReplaceAll(a2, '>', t3), ReplaceAll(b2, '>', t3);
    ReplaceAllConcat(a3, b3, '"', t4);
    var a4, b4 := ReplaceAll(a3, '"', t4), ReplaceAll(b3, '"', t4);
    ReplaceAllConcat(a4, b4, '\'', "&#039;");
  }

  /** Because `&` is replaced first and no entity contains a later target, the chain is a per-character map. */
  lemma {:induction false} EscapeHtmlIsPerCharacter(s: string)
    ensures EscapeHtml(s) == EscapeEach(s)
  {
    if s == [] {
    } else {
      assert s == [s[0]] + s[1..];
      EscapeHtmlConcat([s[0]], s[1..]);
      EscapeHtmlChar(s[0]);
      EscapeHtmlIsPerCharacter(s[1..]);
    }
  }

  /** The escaped text holds no character that could open a tag or close an attribute value. */
  lemma {:induction false} EscapeHtmlNoMarkup(s: string)
    ensures NoMarkup(EscapeHtml(s))
  {
    EscapeHtmlIsPerCharacter(s);
    EscapeEachNoMarkup(s);
  }

  /** Neither an entity nor an ordinary character is one of the four markup characters. */
  predicate NoMarkup(r: string) {
    forall k :: 0 <= k < |r| ==> r[k] != '<' && r[k] != '>' && r[k] != '"' && r[k] != '\''
  }

  lemma {:induction false} EscapeEachNoMarkup(s: string)
    ensures NoMarkup(EscapeEach(s))
  {
    if s != [] {
      EscapeEachNoMarkup(s[1..]);
      var e, t := EscapeChar(s[0]), EscapeEach(s[1..]);
      assert NoMarkup(e);
      forall k | 0 <= k < |e + t| ensures (e + t)[k] != '<' && (e + t)[k] != '>' && (e + t)[k] != '"' && (e + t)[k] != '\'' {
        if k < |e| { assert (e + t)[k] == e[k]; } else { assert (e + t)[k] == t[k - |e|]; }
      }
    }
  }

  /** Text without any of the five special characters is returned as it is. */
  lemma EscapeHtmlPlainText(s: string)
    requires forall k :: 0 <= k < |s| ==> !IsSpecial(s[k])
    ensures EscapeHtml(s) == s
  {
    assert '&' !in s && '<' !in s && '>' !in s && '"' !in s && '\'' !in s;
  }

  /** Every character of the input shows up once in the output: the expansion only adds entity text. */
  lemma EscapeHtmlLength(s: string)
    ensures |EscapeHtml(s)| >= |s|
    ensures |EscapeHtml(s)| == |s| <==> forall k :: 0 <= k < |s| ==> !IsSpecial(s[k])
  {
    EscapeHtmlIsPerCharacter(s);
    EscapeEachLength(s);
  }

  lemma {:induction false} EscapeEachLength(s: string)
    ensures |EscapeEach(s)| >= |s|
    ensures |EscapeEach(s)| == |s| <==> forall k :: 0 <= k < |s| ==> !IsSpecial(s[k])
  {
    if s != [] {
      EscapeEachLength(s[1..]);
      if forall k :: 0 <= k < |s| - 1 ==> !IsSpecial(s[1..][k]) {
        assert forall k :: 1 <= k < |s| ==> !IsSpecial(s[k]) by {
          forall k | 1 <= k < |s| ensures !IsSpecial(s[k]) { assert s[k] == s[1..][k - 1]; }
        }
      } else {
        var k :| 0 <= k < |s| - 1 && IsSpecial(s[1..][k]);
        assert IsSpecial(s[k + 1]);
      }
    }
  }

  /** Decodes the five entities `escapeHtml` emits; a browser's decoding agrees with it on escaped text. */
  function Unescape(s: string): string
    decreases |s|
  {
    if s == [] then []
    else if |s| >= 5 && s[..5] == "&amp;" then "&" + Unescape(s[5..])
    else if |s| >= 4 && s[..4] == "&lt;" then "<" + Unescape(s[4..])
    else if |s| >= 4 && s[..4] == "&gt;" then ">" + Unescape(s[4..])
    else if |s| >= 6 && s[..6] == "&quot;" then "\"" + Unescape(s[6..])
    else if |s| >= 6 && s[..6] == "&#039;" then "'" + Unescape(s[6..])
    else [s[0]] + Unescape(s[1..])
  }

  lemma UnescapeEscapeChar(c: char, t: string)
    ensures Unescape(EscapeChar(c) + t) == [c] + Unescape(t)
  {
    var s := EscapeChar(c) + t;
    if c == '&' {
      assert s[..5] == "&amp;" && s[5..] == t;
    } else if c == '<' {
      assert s[..4] == "&lt;" && s[4..] == t;
      assert s[1] != 'a';
    } else if c == '>' {
      assert s[..4] == "&gt;" && s[4..] == t;
      assert s[1] != 'a' && s[1] != 'l';
    } else if c == '"' {
      assert s[..6] == "&quot;" && s[6..] == t;
      assert s[1] != 'a' && s[1] != 'l' && s[1] != 'g';
    } else if c == '\'' {
      assert s[..6] == "&#039;" && s[6..] == t;
      assert s[1] != 'a' && s[1] != 'l' && s[1] != 'g' && s[1] != 'q';
    } else {
      UnescapePlainChar(c, t);
    }
  }

  lemma UnescapePlainChar(c: char, t: string)
    requires !IsSpecial(c)
    ensures Unescape([c] + t) == [c] + Unescape(t)
  {
    var s := [c] + t;
    assert s[0] == c && s[1..] == t;
    if |s| >= 4 { assert s[..4][0] == c; }
    if |s| >= 5 { assert s[..5][0] == c; }
    if |s| >= 6 { assert s[..6][0] == c; }
  }

  /** Escaping loses nothing: decoding the entities gives back the original text. */
  lemma {:induction false} EscapeHtmlLossless(s: string)
    ensures Unescape(EscapeHtml(s)) == s
  {
    EscapeHtmlIsPerCharacter(s);
    UnescapeEscapeEach(s);
  }

  lemma {:induction false} UnescapeEscapeEach(s: string)
    ensures Unescape(EscapeEach(s)) == s
  {
    if s != [] {
      UnescapeEscapeChar(s[0], EscapeEach(s[1..]));
      UnescapeEscapeEach(s[1..]);
    }
  }

  /** `formatMessage(text)`: empty text gets a placeholder, every newline becomes a `<br>` tag. */
  function FormatMessage(text: string): (r: string)
    ensures text == [] ==> r == NoAnswer
    ensures '\n' !in r
    ensures r != []
    ensures text != [] && '\n' !in text ==> r == text
  {
    if text == [] then NoAnswer else ReplaceAll(text, '\n', "<br>")
  }

  /** A text of lines joined by newlines renders as the rendered lines joined by `<br>`. */
  lemma FormatMessageLines(a: string, b: string)
    requires a != [] && b != []
    ensures FormatMessage(a + "\n" + b) == FormatMessage(a) + "<br>" + FormatMessage(b)
  {
    var br := "<br>";
    ReplaceAllConcat(a + "\n", b, '\n', br);
    ReplaceAllConcat(a, "\n", '\n', br);
    assert ReplaceAll("\n", '\n', br) == br by {
      assert "\n"[1..] == [];
    }
    var fa, fb := ReplaceAll(a, '\n', br), ReplaceAll(b, '\n', br);
    assert ReplaceAll(a + "\n" + b, '\n', br) == (fa + br) + fb;
  }

  /** Each newline turns into the four characters of `<br>`; nothing else changes length. */
  lemma FormatMessageLength(text: string)
    requires text != []
    ensures |FormatMessage(text)| == |text| + 3 * Count(text, '\n')
  {
    ReplaceAllLength(text, '\n', "<br>");
  }
}

=== FILE: wrappers.dfy ===
/** Option, used for the JavaScript properties that may be absent (`undefined`). */
module Wrappers {

  datatype Option<+T> = None | Some(value: T) {

    /** The value, or `default` when absent: the `x || default` idiom for non-falsy values. */
    function GetOr(default: T): (r: T)
      ensures Some? ==> r == value
      ensures None? ==> r == default
    {
      match this
      case Some(v) => v
      case None => default
    }
  }
}
